=== FILE: README.md ===
# Editor cursor and selection engine, in Dafny

This project models the text-editing state engine of the Ace editor widget
(`src/Editor.js`): one cursor, an optional selection anchor and lead, and the
commands over them. Commands that work on this state include:

- clipping positions into the document
- the cursor motions (up, down, left, right, line, file and word jumps)
- the selection API
- double-click word selection
- the line-oriented and text-changing commands that coordinate with the document
- the timer that coalesces bracket-highlight lookups

The editor is an immutable `EditorState` record. Every command is a pure
function from one state to the next:

- `lines`: a non-empty `seq<string>`
- `cursor`
- `anchor` and `lead`: both `Option<Position>`
- `selectionMarker`: the decorated selection range
- `bracket`: the idle/pending highlight machine

`Valid` is the invariant every command keeps:

- the cursor lies in the document
- a lead never exists without an anchor
- the lead lies in the document
- the selection decoration shows exactly the current selection
- no bracket decoration is shown while a lookup is pending

The document's own operations are fields of a `DocAdapter` value. These are
`insert`, `remove`, `replace`, `indentRows`, `outdentRows`, `moveLinesUp`,
`moveLinesDown` and `findMatchingBracket`. They are arbitrary total functions.
The editor assumes nothing of their results except the types, and it clips
every position they return before using it.

Each top-level command takes a `Valid` state. `Init` establishes `Valid`
and every command re-establishes it, so every reachable state is valid. The
source relies on this too: `getLine(cursor.row)` with a row outside the
document would fail.

Modules, one per component:

- `Options`: the optional value used wherever the source stores `null`.
- `Positions`: `Position`, `Range`, row-major order, `Normalize`.
- `Document`: `Lines`, `ValidPosition`, `Clip`, `DocAdapter`.
- `Words`: the token classes `^[\w\d]+` and `^[^\w\d]+` as character-class
  run scans. Also the word-right and word-left column computations, and the
  double-click scan as a loop.
- `Brackets`: the pending/idle bracket-highlight machine.
- `Editor`: the state, motions, selection API, double-click and timer firing.
- `Mutations`: cut, typing, removals, line removal, block indent and outdent,
  moving lines.
- `Scenarios`: concrete examples, proved on small documents.

Behaviours of the code worth knowing when reading the model:

- A cursor update removes the bracket decoration, even while a lookup is
  pending (`src/Editor.js:74-77`). The timer's firing never removes one
  (`src/Editor.js:86-99`).
- An anchor set without a lead, as a mouse press sets it, stays until
  something clears it; typing does not. See "Findings".
- Every command follows the code as written, except three. `RemoveRight`,
  `RemoveLeft` and `RemoveLine` follow the corrected behaviour described
  under "Findings"; the written behaviour is modelled alongside them.
- A missing `indentString` argument is the empty string here; the source's
  `indentString || "    "` treats both the same (`src/Editor.js:267`, `276`).
- Positions are mathematical integers. In the source they are JavaScript
  numbers, which are whole on every path modelled here.

## Model

| member | source | states |
|---|---|---|
| Document.Clip | src/Editor.js:564-581 | the result is always a valid position; a row past the end goes to the end of the last line, a negative row to (0,0), otherwise the row is kept and the column is limited to [0, line length] |
| Document.ClipFixesExactlyValid | src/Editor.js:564-581 | clipping leaves a position unchanged if and only if it is already valid |
| Document.ClipIdempotent | src/Editor.js:564-586 | clipping an already clipped position changes nothing |
| Editor.MoveCursorTo | src/Editor.js:583-586 | the cursor becomes the clipped target and lies in the document; only the cursor and the bracket state change, and the highlight is notified |
| Editor.MoveCursorToIdempotent | src/Editor.js:564-586 | a move to the cursor's own clipped position leaves the whole state unchanged |
| Editor.MoveCursorToCurrent | src/Editor.js:583-586 | moving a valid cursor to its own position keeps it |
| Editor.Init | src/Editor.js:21-28 | a new editor holds the given lines, is valid, has its cursor at (0,0), has no anchor or selection, and its bracket highlight is idle |
| Editor.MoveCursorBy | src/Editor.js:555-557 | the cursor becomes the offset target clipped into the document (so an in-document target is reached exactly), the highlight is notified, and nothing else changes |
| Editor.MoveCursorUp | src/Editor.js:453-455 | up keeps the column and clips it to the line above; from row 0 it goes to (0,0) |
| Editor.MoveCursorDown | src/Editor.js:457-459 | down keeps the column and clips it to the line below; from the last row it goes to the end of that row |
| Editor.MoveCursorLeft | src/Editor.js:461-471 | at column 0 of row r>0 it goes to (r-1, length of row r-1); at (0,0) the state is unchanged; otherwise it goes one column left on the same row |
| Editor.MoveCursorRight | src/Editor.js:473-482 | at the end of a row before the last it goes to (r+1, 0); at the document end the state is unchanged; otherwise it goes one column right on the same row |
| Editor.LeftUndoesRight | src/Editor.js:461-482 | except at the document end, a left move undoes a right move |
| Editor.RightUndoesLeft | src/Editor.js:461-482 | except at the document start, a right move undoes a left move |
| Editor.MoveCursorLineStart | src/Editor.js:484-486 | the cursor goes to column 0 of its row |
| Editor.MoveCursorLineEnd | src/Editor.js:488-491 | the cursor goes to the end of its row |
| Editor.MoveCursorFileStart | src/Editor.js:499-501 | the cursor goes to (0,0) |
| Editor.MoveCursorFileEnd | src/Editor.js:493-497 | the cursor goes to the end of the last row |
| Editor.MoveCursorWordRight | src/Editor.js:503-527 | at a line end it equals a right move; otherwise it stays on the row, strictly increases the column and lands at the end of the maximal run of the class of the character at the cursor |
| Editor.MoveCursorWordLeft | src/Editor.js:529-553 | at column 0 it equals a left move; otherwise it stays on the row, strictly decreases the column and lands at the start of the maximal run of the class of the character before the cursor |
| Editor.WordRightThenWordLeft | src/Editor.js:503-553 | word-right then word-left from inside a line returns to the start of the token the cursor was in |
| Words.RunEnd | src/Editor.js:162-163 | the scan stops at the end of the maximal run of one character class starting at a column |
| Words.RunStart | src/Editor.js:162-163 | the scan stops at the start of the maximal run of one character class ending at a column |
| Words.MatchLength | src/Editor.js:162-163 | an anchored token or non-token match is non-empty exactly when the first character is in that class |
| Words.Reverse | src/Editor.js:533 | the reversed text holds the same characters in opposite order |
| Words.MatchOnSuffix | src/Editor.js:507-524 | matching at the start of the text right of the cursor is the same as scanning the line forward from the cursor |
| Words.MatchOnReversedPrefix | src/Editor.js:533-550 | matching at the start of the reversed text left of the cursor is the same as scanning the line backward from the cursor |
| Words.WordRightColumn | src/Editor.js:503-527 | trying the non-token match first and then the token match gives the end of the run of the class of the character at the cursor, strictly to its right |
| Words.WordLeftColumn | src/Editor.js:529-553 | the same matches over the reversed prefix give the start of the run of the class of the character before the cursor, strictly to its left |
| Words.WordRightThenLeft | src/Editor.js:503-553 | on a line, word-left after word-right gives the start of the run the column was in |
| Words.ScanWordBounds | src/Editor.js:165-192 | the double-click loops compute exactly the start and end of the maximal run, around the column, of the class chosen from the characters before and at the column |
| Editor.MouseDoubleClick | src/Editor.js:165-198 | the selection becomes that maximal run on the cursor's row, with the cursor and lead at its end; the text is unchanged |
| Editor.MouseDown | src/Editor.js:123-129 | a press moves the cursor to the clipped point and arms an anchor there with no selection; the text is unchanged |
| Editor.ApplyMotion | src/Editor.js:453-557 | every motion changes only the cursor (and the bracket state) and leaves it inside the document; a motion either leaves the state untouched or notifies the bracket highlight |
| Positions.Normalize | src/Editor.js:660-672 | the result is ordered start ≤ end, and {start, end} equals {anchor, lead} |
| Positions.NormalizeUnique | src/Editor.js:660-672 | any ordered range with the same two endpoints is the normalized one, whichever order the endpoints are given in |
| Positions.LessEqIsTotalOrder | src/Editor.js:660-661 | the row-then-column comparison is a total order |
| Editor.HasSelection | src/Editor.js:602-604 | a selection exists exactly when a lead is set; under the invariant it then has an anchor and its decoration shows the selection range, and without one nothing is decorated |
| Editor.GetSelectionRange | src/Editor.js:656-673 | the range is ordered, its endpoints are {anchor or cursor, lead or cursor}, and with neither set it is the empty range at the cursor |
| Editor.SetSelectionAnchor | src/Editor.js:615-620 | the old selection is dropped, the clipped anchor is stored and there is no selection |
| Editor.ClearSelection | src/Editor.js:675-683 | anchor, lead and the selection decoration are all cleared, and the cursor is kept |
| Editor.MoveSelection | src/Editor.js:694-715 | the anchor is kept, or seeded from the pre-move cursor when it was unset; the lead equals the moved cursor; there is a selection, and its decoration shows the new range; the bracket highlight is notified exactly as by the plain motion |
| Editor.Select | src/Editor.js:717-776 | the selection-extending commands keep the invariant and make the lead mirror the moved cursor, keeping an armed anchor or seeding it from the cursor; the text is unchanged |
| Editor.MotionIgnoresSelection | src/Editor.js:453-557 | a motion reads only the text and the cursor, so clearing the selection first does not change where the cursor lands |
| Editor.Navigate | src/Editor.js:373-451 | every navigation command other than left and right (those are NavigateLeft and NavigateRight) drops the selection and then moves the cursor as the plain motion does; the text is unchanged |
| Editor.NavigateLeft | src/Editor.js:391-402 | with a selection the cursor goes to its start, clipped into the document, otherwise one step left; the selection is dropped and the text is unchanged |
| Editor.NavigateRight | src/Editor.js:404-415 | with a selection the cursor goes to its end, clipped into the document, otherwise one step right; the selection is dropped and the text is unchanged |
| Editor.ShiftSelection | src/Editor.js:644-654 | without a selection it is a no-op; otherwise anchor and lead become their clipped shifted positions, and the cursor equals the new lead |
| Editor.ShiftSelectionKeepsRows | src/Editor.js:644-654 | for ends on document rows, the rows are kept and the columns become clamp(old + delta) |
| Editor.SelectLine | src/Editor.js:778-783 | it anchors at column 0 of the cursor's row and moves the cursor to the clipped start of the next row, so it selects the line with its break, or on the last row up to its end; the text is unchanged |
| Editor.SelectAll | src/Editor.js:685-692 | it selects the whole document, with the cursor at (0,0); the text is unchanged |
| Brackets.OnCursorUpdate | src/Editor.js:72-85 | a cursor update removes the shown bracket decoration and leaves a lookup pending |
| Brackets.OnTimer | src/Editor.js:86-100 | firing makes the machine idle and shows a one-character decoration on the found bracket |
| Brackets.BracketRange | src/Editor.js:91-97 | the decoration spans the found position and the next column |
| Brackets.UpdatesCoalesce | src/Editor.js:79-86 | any burst of cursor updates starts exactly one timer from idle and none while pending, and it leaves the machine pending |
| Editor.OnHighlightTimer | src/Editor.js:86-100 | the lookup is made at the cursor as it is when the timer fires; a match is decorated, no match leaves no decoration; only the bracket state changes |
| Editor.BurstLooksUpFinalCursor | src/Editor.js:67-101 | after a burst of moves at most one lookup is in flight, and when it fires it is made at the last target's clipped position |
| Mutations.AfterEdit | src/Editor.js:560-562 | the edited lines are installed and the cursor is the document's reported position clipped against them |
| Mutations.OnCut | src/Editor.js:215-220 | with a selection its range is removed and the selection dropped; without one the state is unchanged |
| Mutations.OnTextInput | src/Editor.js:222-231 | a selection is replaced by the text and dropped; without one the text is inserted at the cursor and an armed anchor is kept |
| Mutations.RemoveRightSelectionAsWritten | src/Editor.js:234-236 | as written, an active selection is kept unchanged; otherwise the text is kept, the lead follows the cursor one step right, and the range runs from any armed anchor (not the cursor) to that step |
| Mutations.RemoveLeftSelectionAsWritten | src/Editor.js:244-246 | as written, an active selection is kept unchanged; otherwise the text is kept, the lead follows the cursor one step left, and the range runs from any armed anchor (not the cursor) to that step |
| Mutations.RemoveRightSelection | src/Editor.js:233-237 | the active selection, or else exactly one unit right of the cursor: the next character, the line break, or nothing at the document end |
| Mutations.RemoveLeftSelection | src/Editor.js:243-247 | the active selection, or else exactly one unit left of the cursor: the previous character, the line break, or nothing at the document start |
| Mutations.RemoveRight | src/Editor.js:233-241 | the document removes that range, the cursor goes to the clipped result and the selection is dropped |
| Mutations.RemoveLeft | src/Editor.js:243-251 | the document removes that range, the cursor goes to the clipped result and the selection is dropped |
| Mutations.RemoveRightAtDocumentEnd | src/Editor.js:233-241 | at the document end, delete only asks for the empty range, so a document that ignores empty ranges leaves text and cursor unchanged |
| Mutations.ArmedAnchorWidensRemoveRight | src/Editor.js:222-236 | after a click and typing "x", the delete range as written covers "x" and the next character; the corrected range covers only the next character |
| Mutations.ArmedAnchorEmptiesRemoveLeft | src/Editor.js:243-247 | in the same situation the backspace range as written is empty; the corrected range covers the typed "x" |
| Mutations.RemoveSelectionsAgreeWhenUnarmed | src/Editor.js:233-247 | without an armed anchor the written and the corrected delete ranges coincide |
| Mutations.RemoveLineFirstPass | src/Editor.js:253-256 | the document removes the cursor's line with its break (to the end of the line on the last row), the cursor is clipped to the reported position and the selection is dropped |
| Mutations.JoinBackToLineStart | src/Editor.js:258-261 | the unit before the cursor (normally the preceding line break) is removed and the cursor goes to column 0 of the row it lands on |
| Mutations.RemoveLineAsWritten | src/Editor.js:253-262 | as written, that second removal runs whenever the cursor sits on the last row after the first pass; otherwise the first pass is the result |
| Mutations.RemoveLine | src/Editor.js:253-262 | the second removal runs exactly when the deleted line was the document's last one; otherwise the first pass is the result |
| Mutations.RemoveLineJoinsNextLine | src/Editor.js:253-262 | deleting the middle one of ["a","b","c"] as written also joins "a" and "c"; the corrected removal leaves ["a","c"] with the cursor at (1,0) |
| Mutations.RemoveLineAgreesOnLastLine | src/Editor.js:253-262 | when the last line is deleted and the cursor lands on the new last line, the written and the corrected removals coincide |
| Mutations.IndentUnit | src/Editor.js:267 | an empty indent string stands for four spaces, any other is used as given; the unit is never empty |
| Mutations.BlockIndent | src/Editor.js:264-271 | without a selection it is a no-op; otherwise the selected rows are indented, both ends move by the reported column count (clipped against the indented lines), and the cursor stays on the lead |
| Mutations.BlockOutdent | src/Editor.js:273-280 | the same for outdent, with the ends moved by the reported count |
| Mutations.BlockIndentShiftsColumns | src/Editor.js:264-271 | when the selection rows survive the edit, both ends keep their rows and move by clamp(old + added columns) |
| Mutations.LineSpan | src/Editor.js:303-309 | the span starts at the range's first row, is never empty, and leaves out the last row exactly when a multi-row range ends at column 0 |
| Mutations.MoveLines | src/Editor.js:291-317 | the selection becomes anchor (last+moved+1, 0) and cursor = lead = (first+moved, 0), each clipped against the moved document |
| Mutations.MoveLinesSelectsBlock | src/Editor.js:303-317 | when the moved block stays inside the document, the new selection is exactly its whole lines |
| Scenarios.ClipFarTarget | src/Editor.js:564-586 | on ["a"] a move to (5,5) lands at (0,1) |
| Scenarios.WrapSymmetry | src/Editor.js:461-482 | on ["abc","def"], right from (0,3) goes to (1,0) and left goes back to (0,3) |
| Scenarios.WordStops | src/Editor.js:503-527 | word-right over "foo.bar" stops at columns 3, 4 and 7 |
| Scenarios.DoubleClickSelectsWord | src/Editor.js:165-198 | double-clicking in "bar" of "foo bar" selects columns 4 to 7 |

## Left out

- DOM and event wiring are not modelled: listener registration, focus and
  blur, the mouse-drag capture with its `setInterval` loop, mouse-wheel
  scrolling and IME composition. These are input capture and timers. Only the
  state change of a mouse press is modelled, with the text position as a
  parameter.
- Renderer calls are not modelled: `draw`, `updateCursor`, `scrollCursorIntoView`,
  `scrollToRow`, `resize`, the visible-row and page queries, `gotoLine`,
  `selectPageUp` and `selectPageDown`. These belong to the viewport. Decoration
  handles are modelled as the optional range they decorate.
- The background tokenizer, language modes, `setMode`, `setDocument`,
  `onDocumentChange` and `toggleCommentLines` are not modelled. They are
  external collaborators.
- The internals of the document operations (`insert`, `remove`, `replace`,
  `indentRows`, `outdentRows`, `moveLinesUp`/`Down`, `findMatchingBracket`)
  are not modelled. The source does not define them here. They are arbitrary
  functions in `DocAdapter`, so results that depend on them are stated in
  terms of their outputs. For example, deleting the last line of
  ["abc","def"] is not proved to give ["def"].
- The 10 ms delay of the highlight timer is not modelled. Only the pending
  flag's transitions are.
- Regex `lastIndex` handling is not modelled. The token patterns are character
  class scans over `seq<char>`. `\w` is ASCII-only in JavaScript as well.
- UTF-16 lengths are not modelled. A Dafny string counts Unicode scalar
  values, while JavaScript's `.length` and `substring` count UTF-16 code
  units. With characters outside the Basic Multilingual Plane the model's
  line lengths and columns are smaller than the source's.
- `getCopyText`, `hasMultiLineSelection`, `getCursorPosition`,
  `getSelectionAnchor` and `getSelectionLead` are not modelled. They are
  read-only accessors, or they need the document's `getTextRange`.
- Mutations.RemoveRight: uses the corrected selection from "Findings", so it
  does not promise the source's deletion from an armed anchor; that is
  `RemoveRightSelectionAsWritten`.
- Mutations.RemoveLeft: likewise uses the corrected selection; the written one
  is `RemoveLeftSelectionAsWritten`.
- Mutations.RemoveRightSelection: the corrected range ignores an armed anchor,
  which the source's `selectRight` would keep.
- Mutations.RemoveLeftSelection: the corrected range ignores an armed anchor,
  which the source's `selectLeft` would keep.
- Mutations.RemoveLine: runs the trailing-break removal only when the deleted
  line was the last one, not whenever the cursor lands on the last row; the
  written test is `RemoveLineAsWritten`.

## Findings

| source | as written | input that shows it | evidently intended | confidence | as-written member | corrected member |
|---|---|---|---|---|---|---|
| src/Editor.js:233-241 | without a selection, `removeRight` runs `selectRight`, which keeps an armed anchor (one set by a click and never cleared by `onTextInput`) instead of seeding it from the cursor | on ["ab"]: click at (0,0), type "x" (cursor (0,1), anchor still (0,0)), press Delete: the range (0,0)-(0,2) removes "x" and "a" | delete the one unit right of the cursor, (0,1)-(0,2) | medium, not executed | Mutations.RemoveRightSelectionAsWritten, shown by Mutations.ArmedAnchorWidensRemoveRight | Mutations.RemoveRightSelection |
| src/Editor.js:243-251 | without a selection, `removeLeft` runs `selectLeft` from the same armed anchor | same input, press Backspace: the range (0,0)-(0,0) is empty and nothing is deleted | delete the one unit left of the cursor, (0,0)-(0,1), that is the typed "x" | medium, not executed | Mutations.RemoveLeftSelectionAsWritten, shown by Mutations.ArmedAnchorEmptiesRemoveLeft | Mutations.RemoveLeftSelection |
| src/Editor.js:253-262 | `removeLine` removes the preceding line break whenever the cursor ends on the last row after the first removal, which also happens after deleting the second-to-last row | on ["a","b","c"] with the cursor on row 1: the first removal leaves ["a","c"] with the cursor at (1,0), so the break after "a" is removed too and the result is ["ac"] | the trailing-break fixup only when the deleted line was the document's last one, leaving ["a","c"] | medium, not executed | Mutations.RemoveLineAsWritten, shown by Mutations.RemoveLineJoinsNextLine | Mutations.RemoveLine |

=== FILE: brackets.dfy ===
/** The coalescing of bracket-highlight lookups: a two-state machine, idle or
    pending, stepped by cursor updates and by the firing of its one timer. */
module Brackets {
  import opened Options
  import opened Positions

  /** `pending` is set while a lookup timer is in flight; `marker` is the
      one-character decoration currently shown, if any. */
  datatype BracketHighlight = BracketHighlight(pending: bool, marker: Option<Range>)

  const Idle: BracketHighlight := BracketHighlight(false, None)

  /** No decoration is shown while a lookup is pending. */
  predicate Coherent(h: BracketHighlight) {
    h.pending ==> h.marker.None?
  }

  /** Whether a cursor update in state `h` starts a timer. */
  predicate StartsTimer(h: BracketHighlight) {
    !h.pending
  }

  /** A cursor update drops the shown decoration; when idle it also starts the
      timer, and when pending it leaves the one in flight alone. */
  function OnCursorUpdate(h: BracketHighlight): (r: BracketHighlight)
    ensures r.pending && r.marker.None?
    ensures Coherent(r)
  {
    var released := h.(marker := None);
    if released.pending then released else released.(pending := true)
  }

  /** The one-character decoration placed on a matching bracket. */
  function BracketRange(p: Position): (r: Range)
    ensures r.start == p && r.end.row == p.row && r.end.column == p.column + 1
  {
    Range(p, Position(p.row, p.column + 1))
  }

  /** The timer fires (only while pending) with the result of the lookup made
      at that moment: the machine goes idle and shows the match, if any. */
  function OnTimer(h: BracketHighlight, found: Option<Position>): (r: BracketHighlight)
    requires h.pending
    ensures !r.pending
    ensures found.Some? ==> r.marker == Some(BracketRange(found.value))
    ensures Coherent(h) && found.None? ==> r.marker.None?
  {
    BracketHighlight(false, if found.Some? then Some(BracketRange(found.value)) else h.marker)
  }

  /** State after `n` cursor updates with no timer firing in between. */
  function AfterUpdates(h: BracketHighlight, n: nat): BracketHighlight
    decreases n
  {
    if n == 0 then h else AfterUpdates(OnCursorUpdate(h), n - 1)
  }

  /** Number of timers started by those `n` updates. */
  function TimersStarted(h: BracketHighlight, n: nat): nat
    decreases n
  {
    if n == 0 then 0
    else (if StartsTimer(h) then 1 else 0) + TimersStarted(OnCursorUpdate(h), n - 1)
  }

  /** Any burst of cursor updates leaves exactly one lookup in flight: one timer
      is started when the burst begins idle, none when one is already pending. */
  lemma {:induction false} UpdatesCoalesce(h: BracketHighlight, n: nat)
    requires n >= 1
    ensures AfterUpdates(h, n).pending && AfterUpdates(h, n).marker.None?
    ensures TimersStarted(h, n) == (if h.pending then 0 else 1)
    decreases n
  {
    if n > 1 {
      UpdatesCoalesce(OnCursorUpdate(h), n - 1);
    }
  }
}

=== FILE: document.dfy ===
/** The document the editor holds a reference to: its lines, the clipping of
    positions against them, and the mutation calls the editor delegates to it. */
module Document {
  import opened Options
  import opened Positions

  /** A document always has at least one (possibly empty) line. */
  type Lines = s: seq<string> | |s| > 0 witness [""]

  function LastRow(lines: Lines): nat {
    |lines| - 1
  }

  /** `x` limited to [lo, hi]. */
  function Clamp(x: int, lo: int, hi: int): int
    requires lo <= hi
  {
    if x < lo then lo else if x > hi then hi else x
  }

  /** A position that names a row of the document and a column at most its length. */
  predicate ValidPosition(lines: Lines, p: Position) {
    0 <= p.row < |lines| && 0 <= p.column <= |lines[p.row]|
  }

  /** Coerces (row, column) to a position of the document: a row past the end
      goes to the end of the last line, a negative row to the document start,
      and otherwise only the column is limited to the line. */
  function Clip(lines: Lines, row: int, column: int): (p: Position)
    ensures ValidPosition(lines, p)
    ensures row >= |lines| ==> p == Position(LastRow(lines), |lines[LastRow(lines)]|)
    ensures row < 0 ==> p == Position(0, 0)
    ensures 0 <= row < |lines| ==> p.row == row
    ensures 0 <= row < |lines| && 0 <= column <= |lines[row]| ==> p.column == column
    ensures 0 <= row < |lines| && column < 0 ==> p.column == 0
    ensures 0 <= row < |lines| && column > |lines[row]| ==> p.column == |lines[row]|
  {
    if row >= |lines| then
      Position(LastRow(lines), |lines[LastRow(lines)]|)
    else if row < 0 then
      Position(0, 0)
    else
      Position(row, Clamp(column, 0, |lines[row]|))
  }

  /** Clipping changes a position exactly when it is not already valid. */
  lemma ClipFixesExactlyValid(lines: Lines, p: Position)
    ensures Clip(lines, p.row, p.column) == p <==> ValidPosition(lines, p)
  {
  }

  /** Clipping a clipped position changes nothing. */
  lemma ClipIdempotent(lines: Lines, row: int, column: int)
    ensures var p := Clip(lines, row, column); Clip(lines, p.row, p.column) == p
  {
    ClipFixesExactlyValid(lines, Clip(lines, row, column));
  }

  /** The mutation and query calls the editor makes on its document. Their
      internals belong to the document; the editor only relies on the result
      types: every edit yields new lines plus a position (clipped by the
      editor before use) or a count. */
  datatype DocAdapter = DocAdapter(
    insert: (Lines, Position, string) -> (Lines, Position),
    remove: (Lines, Range) -> (Lines, Position),
    replace: (Lines, Range, string) -> (Lines, Position),
    indentRows: (Lines, Range, string) -> (Lines, int),
    outdentRows: (Lines, Range, string) -> (Lines, int),
    moveLinesUp: (Lines, int, int) -> (Lines, int),
    moveLinesDown: (Lines, int, int) -> (Lines, int),
    findMatchingBracket: (Lines, Position) -> Option<Position>)
}

=== FILE: editor.dfy ===
/** The editor's cursor and selection state and every command that moves
    them without editing text: clipping, motions, the selection API,
    double-click word selection and the bracket-highlight timer. */
module Editor {
  import opened Options
  import opened Positions
  import opened Document
  import opened Words
  import opened Brackets

  /** One editor instance. `anchor` is the fixed end of the selection, `lead`
      its moving end; a selection exists exactly when `lead` is set, while an
      anchor alone is "armed". `selectionMarker` is the range currently
      decorated as the selection. */
  datatype EditorState = EditorState(
    lines: Lines,
    cursor: Position,
    anchor: Option<Position>,
    lead: Option<Position>,
    selectionMarker: Option<Range>,
    bracket: BracketHighlight)

  /** The cursor motions a command can run, plain or selection-extending. */
  datatype Motion =
    | Up | Down | Left | Right
    | LineStart | LineEnd | FileStart | FileEnd
    | WordLeft | WordRight
    | To(row: int, column: int)
  {
    /** Motions that read the cursor's line, and so need a cursor inside the document. */
    predicate ReadsCursorLine() {
      Left? || Right? || LineEnd? || WordLeft? || WordRight?
    }
  }

  /** Whether a selection exists; under the invariant this also means an
      anchor exists and the decoration shows the selection. */
  predicate HasSelection(e: EditorState)
    ensures HasSelection(e) && SelectionCoherent(e) ==>
              e.anchor.Some? && e.selectionMarker == Some(GetSelectionRange(e))
    ensures !HasSelection(e) && SelectionCoherent(e) ==> e.selectionMarker.None?
  {
    e.lead.Some?
  }

  /** The selection as a normalized range: its ends are the anchor and the
      lead, each standing in for by the cursor when unset. */
  function GetSelectionRange(e: EditorState): (r: Range)
    ensures IsNormalized(r)
    ensures var a := e.anchor.GetOr(e.cursor); var l := e.lead.GetOr(e.cursor);
            (r.start == a && r.end == l) || (r.start == l && r.end == a)
    ensures e.anchor.None? && e.lead.None? ==> r == Range(e.cursor, e.cursor)
  {
    Normalize(e.anchor.GetOr(e.cursor), e.lead.GetOr(e.cursor))
  }

  /** A lead never exists without an anchor, sits inside the document, and the
      selection decoration shows exactly the current selection. */
  predicate SelectionCoherent(e: EditorState) {
    && (e.lead.Some? ==> e.anchor.Some? && ValidPosition(e.lines, e.lead.value))
    && e.selectionMarker == (if e.lead.Some? then Some(GetSelectionRange(e)) else None)
  }

  /** The invariant every command keeps. */
  predicate Valid(e: EditorState) {
    ValidPosition(e.lines, e.cursor) && SelectionCoherent(e) && Coherent(e.bracket)
  }

  /** A freshly constructed editor. */
  function Init(lines: Lines): (e: EditorState)
    ensures Valid(e)
    ensures e.cursor == Position(0, 0) && e.anchor.None? && !HasSelection(e)
    ensures e.lines == lines && e.bracket == Idle
  {
    EditorState(lines, Position(0, 0), None, None, None, Idle)
  }

  /** Only the cursor and the bracket state may differ. */
  predicate OnlyCursorMoved(e: EditorState, r: EditorState) {
    r.lines == e.lines && r.anchor == e.anchor && r.lead == e.lead
    && r.selectionMarker == e.selectionMarker
  }

  /** The single place the cursor is written: the target is clipped into the
      document and the bracket highlight is told the cursor moved. */
  function MoveCursorTo(e: EditorState, row: int, column: int): (r: EditorState)
    ensures r.cursor == Clip(e.lines, row, column)
    ensures ValidPosition(r.lines, r.cursor)
    ensures OnlyCursorMoved(e, r)
    ensures r.bracket == OnCursorUpdate(e.bracket)
  {
    e.(cursor := Clip(e.lines, row, column), bracket := OnCursorUpdate(e.bracket))
  }

  /** Moving to where a clipped move already put the cursor changes nothing. */
  lemma MoveCursorToIdempotent(e: EditorState, row: int, column: int)
    ensures var r := MoveCursorTo(e, row, column);
            MoveCursorTo(r, r.cursor.row, r.cursor.column) == r
  {
    ClipIdempotent(e.lines, row, column);
  }

  /** Moving to a valid cursor's own position keeps the cursor. */
  lemma MoveCursorToCurrent(e: EditorState)
    requires ValidPosition(e.lines, e.cursor)
    ensures MoveCursorTo(e, e.cursor.row, e.cursor.column).cursor == e.cursor
  {
    ClipFixesExactlyValid(e.lines, e.cursor);
  }

  /** Moves the cursor by a row and column offset, clipped into the document;
      a target that is already in the document is reached exactly. */
  function MoveCursorBy(e: EditorState, rows: int, chars: int): (r: EditorState)
    ensures OnlyCursorMoved(e, r) && ValidPosition(r.lines, r.cursor)
    ensures r.cursor == Clip(e.lines, e.cursor.row + rows, e.cursor.column + chars)
    ensures r.bracket == OnCursorUpdate(e.bracket)
    ensures var t := Position(e.cursor.row + rows, e.cursor.column + chars);
            ValidPosition(e.lines, t) ==> r.cursor == t
  {
    MoveCursorTo(e, e.cursor.row + rows, e.cursor.column + chars)
  }

  /** Up keeps the column and clips; from the first row that is the document start. */
  function MoveCursorUp(e: EditorState): (r: EditorState)
    ensures OnlyCursorMoved(e, r) && ValidPosition(r.lines, r.cursor)
    ensures ValidPosition(e.lines, e.cursor) && e.cursor.row == 0 ==> r.cursor == Position(0, 0)
    ensures ValidPosition(e.lines, e.cursor) && e.cursor.row > 0 ==>
              r.cursor == Position(e.cursor.row - 1, Clamp(e.cursor.column, 0, |e.lines[e.cursor.row - 1]|))
  {
    MoveCursorBy(e, -1, 0)
  }

  /** Down keeps the column and clips; from the last row that is the document end. */
  function MoveCursorDown(e: EditorState): (r: EditorState)
    ensures OnlyCursorMoved(e, r) && ValidPosition(r.lines, r.cursor)
    ensures ValidPosition(e.lines, e.cursor) && e.cursor.row == LastRow(e.lines) ==>
              r.cursor == Position(LastRow(e.lines), |e.lines[LastRow(e.lines)]|)
    ensures ValidPosition(e.lines, e.cursor) && e.cursor.row < LastRow(e.lines) ==>
              r.cursor == Position(e.cursor.row + 1, Clamp(e.cursor.column, 0, |e.lines[e.cursor.row + 1]|))
  {
    MoveCursorBy(e, 1, 0)
  }

  /** Left wraps to the end of the previous line and stops at the document start. */
  function MoveCursorLeft(e: EditorState): (r: EditorState)
    requires ValidPosition(e.lines, e.cursor)
    ensures OnlyCursorMoved(e, r) && ValidPosition(r.lines, r.cursor)
    ensures e.cursor == Position(0, 0) ==> r == e
    ensures e.cursor.column == 0 && e.cursor.row > 0 ==>
              r.cursor == Position(e.cursor.row - 1, |e.lines[e.cursor.row - 1]|)
    ensures e.cursor.column > 0 ==> r.cursor == Position(e.cursor.row, e.cursor.column - 1)
  {
    if e.cursor.column == 0 then
      if e.cursor.row > 0 then MoveCursorTo(e, e.cursor.row - 1, |e.lines[e.cursor.row - 1]|)
      else e
    else
      MoveCursorBy(e, 0, -1)
  }

  /** Right wraps to the start of the next line and stops at the document end. */
  function MoveCursorRight(e: EditorState): (r: EditorState)
    requires ValidPosition(e.lines, e.cursor)
    ensures OnlyCursorMoved(e, r) && ValidPosition(r.lines, r.cursor)
    ensures e.cursor == Position(LastRow(e.lines), |e.lines[LastRow(e.lines)]|) ==> r == e
    ensures e.cursor.column == |e.lines[e.cursor.row]| && e.cursor.row < LastRow(e.lines) ==>
              r.cursor == Position(e.cursor.row + 1, 0)
    ensures e.cursor.column < |e.lines[e.cursor.row]| ==>
              r.cursor == Position(e.cursor.row, e.cursor.column + 1)
  {
    if e.cursor.column == |e.lines[e.cursor.row]| then
      if e.cursor.row < LastRow(e.lines) then MoveCursorTo(e, e.cursor.row + 1, 0)
      else e
    else
      MoveCursorBy(e, 0, 1)
  }

  /** Left and right undo each other away from the document ends. */
  lemma LeftUndoesRight(e: EditorState)
    requires ValidPosition(e.lines, e.cursor)
    requires e.cursor != Position(LastRow(e.lines), |e.lines[LastRow(e.lines)]|)
    ensures MoveCursorLeft(MoveCursorRight(e)).cursor == e.cursor
  {
  }

  /** The converse: away from the document start, right undoes left. */
  lemma RightUndoesLeft(e: EditorState)
    requires ValidPosition(e.lines, e.cursor)
    requires e.cursor != Position(0, 0)
    ensures MoveCursorRight(MoveCursorLeft(e)).cursor == e.cursor
  {
  }

  function MoveCursorLineStart(e: EditorState): (r: EditorState)
    ensures OnlyCursorMoved(e, r) && ValidPosition(r.lines, r.cursor)
    ensures ValidPosition(e.lines, e.cursor) ==> r.cursor == Position(e.cursor.row, 0)
  {
    MoveCursorTo(e, e.cursor.row, 0)
  }

  function MoveCursorLineEnd(e: EditorState): (r: EditorState)
    requires ValidPosition(e.lines, e.cursor)
    ensures OnlyCursorMoved(e, r)
    ensures r.cursor == Position(e.cursor.row, |e.lines[e.cursor.row]|)
  {
    MoveCursorTo(e, e.cursor.row, |e.lines[e.cursor.row]|)
  }

  function MoveCursorFileStart(e: EditorState): (r: EditorState)
    ensures OnlyCursorMoved(e, r)
    ensures r.cursor == Position(0, 0)
  {
    MoveCursorTo(e, 0, 0)
  }

  function MoveCursorFileEnd(e: EditorState): (r: EditorState)
    ensures OnlyCursorMoved(e, r)
    ensures r.cursor == Position(LastRow(e.lines), |e.lines[LastRow(e.lines)]|)
  {
    var row := LastRow(e.lines);
    MoveCursorTo(e, row, |e.lines[row]|)
  }

  /** Word-right: at a line end it is a plain right move; elsewhere it stays on
      the line and skips the whole run of the class of the character at the
      cursor. */
  function MoveCursorWordRight(e: EditorState): (r: EditorState)
    requires ValidPosition(e.lines, e.cursor)
    ensures OnlyCursorMoved(e, r) && ValidPosition(r.lines, r.cursor)
    ensures e.cursor.column == |e.lines[e.cursor.row]| ==> r == MoveCursorRight(e)
    ensures e.cursor.column < |e.lines[e.cursor.row]| ==>
              var line := e.lines[e.cursor.row];
              && r.cursor.row == e.cursor.row
              && r.cursor.column > e.cursor.column
              && r.cursor.column == RunEnd(line, e.cursor.column, IsWordChar(line[e.cursor.column]))
  {
    var line := e.lines[e.cursor.row];
    if e.cursor.column == |line| then MoveCursorRight(e)
    else MoveCursorTo(e, e.cursor.row, WordRightColumn(line, e.cursor.column))
  }

  /** Word-left: at a line start it is a plain left move; elsewhere it stays on
      the line and goes back over the whole run of the class of the character
      before the cursor. */
  function MoveCursorWordLeft(e: EditorState): (r: EditorState)
    requires ValidPosition(e.lines, e.cursor)
    ensures OnlyCursorMoved(e, r) && ValidPosition(r.lines, r.cursor)
    ensures e.cursor.column == 0 ==> r == MoveCursorLeft(e)
    ensures e.cursor.column > 0 ==>
              var line := e.lines[e.cursor.row];
              && r.cursor.row == e.cursor.row
              && r.cursor.column < e.cursor.column
              && r.cursor.column == RunStart(line, e.cursor.column, IsWordChar(line[e.cursor.column - 1]))
  {
    var line := e.lines[e.cursor.row];
    if e.cursor.column == 0 then MoveCursorLeft(e)
    else MoveCursorTo(e, e.cursor.row, WordLeftColumn(line, e.cursor.column))
  }

  /** Word-right then word-left from inside a line lands at the start of the
      token the cursor was in, which is the original column only when the
      cursor was at that token's start. */
  lemma WordRightThenWordLeft(e: EditorState)
    requires ValidPosition(e.lines, e.cursor)
    requires e.cursor.column < |e.lines[e.cursor.row]|
    ensures var line := e.lines[e.cursor.row];
            MoveCursorWordLeft(MoveCursorWordRight(e)).cursor
              == Position(e.cursor.row, RunStart(line, e.cursor.column, IsWordChar(line[e.cursor.column])))
  {
    WordRightThenLeft(e.lines[e.cursor.row], e.cursor.column);
  }

  function ApplyMotion(e: EditorState, m: Motion): (r: EditorState)
    requires ValidPosition(e.lines, e.cursor) || !m.ReadsCursorLine()
    ensures OnlyCursorMoved(e, r) && ValidPosition(r.lines, r.cursor)
    ensures Coherent(e.bracket) ==> Coherent(r.bracket)
    ensures r == e || r.bracket == OnCursorUpdate(e.bracket)
  {
    match m
    case Up => MoveCursorUp(e)
    case Down => MoveCursorDown(e)
    case Left => MoveCursorLeft(e)
    case Right => MoveCursorRight(e)
    case LineStart => MoveCursorLineStart(e)
    case LineEnd => MoveCursorLineEnd(e)
    case FileStart => MoveCursorFileStart(e)
    case FileEnd => MoveCursorFileEnd(e)
    case WordLeft => MoveCursorWordLeft(e)
    case WordRight => MoveCursorWordRight(e)
    case To(row, column) => MoveCursorTo(e, row, column)
  }

  /** Drops anchor, lead and the selection decoration. */
  function ClearSelection(e: EditorState): (r: EditorState)
    ensures r.anchor.None? && r.lead.None? && r.selectionMarker.None?
    ensures r.lines == e.lines && r.cursor == e.cursor && r.bracket == e.bracket
  {
    e.(anchor := None, lead := None, selectionMarker := None)
  }

  /** Arms a new selection: any old one is dropped and the clipped anchor is
      stored with no lead yet. */
  function SetSelectionAnchor(e: EditorState, row: int, column: int): (r: EditorState)
    ensures !HasSelection(r) && r.selectionMarker.None?
    ensures r.anchor == Some(Clip(e.lines, row, column))
    ensures r.lines == e.lines && r.cursor == e.cursor && r.bracket == e.bracket
  {
    ClearSelection(e).(anchor := Some(Clip(e.lines, row, column)), lead := None)
  }

  /** Extends the selection by a motion: the anchor is kept, or seeded from
      the cursor before the move when unset; the lead then follows the moved
      cursor and the decoration is redrawn on the new range. The motion reads
      and writes only the cursor, so seeding the anchor after it is the same. */
  function MoveSelection(e: EditorState, m: Motion): (r: EditorState)
    requires ValidPosition(e.lines, e.cursor) || !m.ReadsCursorLine()
    ensures HasSelection(r) && r.lead == Some(r.cursor)
    ensures r.anchor == Some(if e.anchor.Some? then e.anchor.value else e.cursor)
    ensures r.cursor == ApplyMotion(e, m).cursor && r.lines == e.lines
    ensures r.bracket == ApplyMotion(e, m).bracket
    ensures ValidPosition(r.lines, r.cursor) && SelectionCoherent(r)
    ensures Coherent(e.bracket) ==> Coherent(r.bracket)
  {
    var moved := ApplyMotion(e, m);
    var extended := moved.(anchor := Some(e.anchor.GetOr(e.cursor)), lead := Some(moved.cursor));
    extended.(selectionMarker := Some(GetSelectionRange(extended)))
  }

  /** The selection-extending commands (`selectUp`, `selectWordRight`, ...). */
  function Select(e: EditorState, m: Motion): (r: EditorState)
    requires Valid(e)
    ensures Valid(r) && HasSelection(r) && r.lead == Some(r.cursor) && r.lines == e.lines
    ensures r.anchor == Some(if e.anchor.Some? then e.anchor.value else e.cursor)
    ensures r.cursor == ApplyMotion(e, m).cursor
  {
    MoveSelection(e, m)
  }

  /** The plain navigation commands (`navigateUp`, `navigateWordRight`, ...):
      the selection is dropped, then the cursor moves. */
  function Navigate(e: EditorState, m: Motion): (r: EditorState)
    requires Valid(e)
    requires !m.Left? && !m.Right?
    ensures Valid(r) && r.anchor.None? && !HasSelection(r) && r.lines == e.lines
    ensures r.cursor == ApplyMotion(e, m).cursor
  {
    MotionIgnoresSelection(e, m);
    ApplyMotion(ClearSelection(e), m)
  }

  /** A motion reads only the text and the cursor, so dropping the selection
      first does not change where the cursor goes. */
  lemma MotionIgnoresSelection(e: EditorState, m: Motion)
    requires ValidPosition(e.lines, e.cursor) || !m.ReadsCursorLine()
    ensures ApplyMotion(ClearSelection(e), m).cursor == ApplyMotion(e, m).cursor
  {
  }

  /** Left arrow: with a selection, the cursor goes to its start; otherwise
      one step left. The selection is dropped either way. */
  function NavigateLeft(e: EditorState): (r: EditorState)
    requires Valid(e)
    ensures Valid(r) && r.anchor.None? && !HasSelection(r) && r.lines == e.lines
    ensures !HasSelection(e) ==> r.cursor == MoveCursorLeft(e).cursor
    ensures var s := GetSelectionRange(e).start;
            HasSelection(e) ==> r.cursor == Clip(e.lines, s.row, s.column)
  {
    var moved :=
      if HasSelection(e) then
        var start := GetSelectionRange(e).start;
        MoveCursorTo(e, start.row, start.column)
      else
        MoveCursorLeft(e);
    ClearSelection(moved)
  }

  /** Right arrow: with a selection, the cursor goes to its end; otherwise
      one step right. The selection is dropped either way. */
  function NavigateRight(e: EditorState): (r: EditorState)
    requires Valid(e)
    ensures Valid(r) && r.anchor.None? && !HasSelection(r) && r.lines == e.lines
    ensures !HasSelection(e) ==> r.cursor == MoveCursorRight(e).cursor
    ensures var s := GetSelectionRange(e).end;
            HasSelection(e) ==> r.cursor == Clip(e.lines, s.row, s.column)
  {
    var moved :=
      if HasSelection(e) then
        var end := GetSelectionRange(e).end;
        MoveCursorTo(e, end.row, end.column)
      else
        MoveCursorRight(e);
    ClearSelection(moved)
  }

  /** Moves both ends of a selection by `columns` on their own rows (after an
      indent or outdent); without a selection nothing happens. */
  function ShiftSelection(e: EditorState, columns: int): (r: EditorState)
    requires e.lead.Some? ==> e.anchor.Some?
    ensures !HasSelection(e) ==> r == e
    ensures HasSelection(e) ==>
              && r.lines == e.lines
              && r.anchor == Some(Clip(e.lines, e.anchor.value.row, e.anchor.value.column + columns))
              && r.lead == Some(Clip(e.lines, e.lead.value.row, e.lead.value.column + columns))
              && r.cursor == r.lead.value
              && ValidPosition(r.lines, r.cursor) && SelectionCoherent(r)
    ensures Coherent(e.bracket) ==> Coherent(r.bracket)
  {
    if !HasSelection(e) then e
    else
      var anchor := e.anchor.value;
      var lead := e.lead.value;
      var armed := SetSelectionAnchor(e, anchor.row, anchor.column + columns);
      MoveSelection(armed, To(lead.row, lead.column + columns))
  }

  /** When both ends lie on rows of the document, shifting keeps their rows
      and moves each column by `columns`, limited to its line. */
  lemma ShiftSelectionKeepsRows(e: EditorState, columns: int)
    requires e.lead.Some? && e.anchor.Some?
    requires 0 <= e.anchor.value.row < |e.lines| && 0 <= e.lead.value.row < |e.lines|
    ensures var r := ShiftSelection(e, columns);
            var a := e.anchor.value; var l := e.lead.value;
            && r.anchor == Some(Position(a.row, Clamp(a.column + columns, 0, |e.lines[a.row]|)))
            && r.lead == Some(Position(l.row, Clamp(l.column + columns, 0, |e.lines[l.row]|)))
            && r.cursor == r.lead.value
  {
  }

  /** Triple-click: selects the cursor's line together with its line break,
      or up to the document end on the last line. */
  function SelectLine(e: EditorState): (r: EditorState)
    requires Valid(e)
    ensures Valid(r) && HasSelection(r) && r.lead == Some(r.cursor) && r.lines == e.lines
    ensures r.anchor == Some(Position(e.cursor.row, 0)) && r.cursor == Clip(e.lines, e.cursor.row + 1, 0)
    ensures e.cursor.row < LastRow(e.lines) ==>
              GetSelectionRange(r) == Range(Position(e.cursor.row, 0), Position(e.cursor.row + 1, 0))
    ensures e.cursor.row == LastRow(e.lines) ==>
              GetSelectionRange(r) == Range(Position(e.cursor.row, 0), Position(e.cursor.row, |e.lines[e.cursor.row]|))
  {
    var armed := SetSelectionAnchor(e, e.cursor.row, 0);
    MoveSelection(armed, To(e.cursor.row + 1, 0))
  }

  /** Selects the whole document, anchored at its end with the cursor at its start. */
  function SelectAll(e: EditorState): (r: EditorState)
    requires Valid(e)
    ensures Valid(r) && HasSelection(r) && r.cursor == Position(0, 0) && r.lines == e.lines
    ensures GetSelectionRange(r) == Range(Position(0, 0), Position(LastRow(e.lines), |e.lines[LastRow(e.lines)]|))
  {
    var lastRow := LastRow(e.lines);
    var armed := SetSelectionAnchor(e, lastRow, |e.lines[lastRow]|);
    MoveSelection(armed, To(0, 0))
  }

  /** The state part of a mouse press at text position `pos` (converted from
      screen coordinates by the renderer): the cursor goes there and a new
      selection is armed at the same place. */
  function MouseDown(e: EditorState, pos: Position): (r: EditorState)
    requires Valid(e)
    ensures Valid(r) && !HasSelection(r) && r.lines == e.lines
    ensures r.cursor == Clip(e.lines, pos.row, pos.column) && r.anchor == Some(r.cursor)
  {
    var moved := MoveCursorTo(e, pos.row, pos.column);
    SetSelectionAnchor(moved, pos.row, pos.column)
  }

  /** Double-click: selects the maximal run, around the cursor, of the class
      found next to it, leaving the cursor at the run's end. */
  function MouseDoubleClick(e: EditorState): (r: EditorState)
    requires Valid(e)
    ensures Valid(r) && HasSelection(r) && r.lead == Some(r.cursor) && r.lines == e.lines
    ensures var line := e.lines[e.cursor.row];
            var w := InTokenAt(line, e.cursor.column);
            GetSelectionRange(r) == Range(Position(e.cursor.row, RunStart(line, e.cursor.column, w)),
                                          Position(e.cursor.row, RunEnd(line, e.cursor.column, w)))
    ensures r.cursor == Position(e.cursor.row, RunEnd(e.lines[e.cursor.row], e.cursor.column,
                                                      InTokenAt(e.lines[e.cursor.row], e.cursor.column)))
  {
    var line := e.lines[e.cursor.row];
    var w := InTokenAt(line, e.cursor.column);
    var start := RunStart(line, e.cursor.column, w);
    var end := RunEnd(line, e.cursor.column, w);
    var armed := SetSelectionAnchor(e, e.cursor.row, start);
    MoveSelection(armed, To(e.cursor.row, end))
  }

  /** A burst of cursor moves, one per target, with no timer firing in between. */
  function MoveThrough(e: EditorState, targets: seq<Position>): EditorState
    decreases |targets|
  {
    if targets == [] then e
    else MoveThrough(MoveCursorTo(e, targets[0].row, targets[0].column), targets[1..])
  }

  /** The bracket-highlight timer fires: the lookup reads the cursor as it is
      now, not as it was when the timer was started. */
  function OnHighlightTimer(e: EditorState, doc: DocAdapter): (r: EditorState)
    requires e.bracket.pending
    ensures !r.bracket.pending
    ensures r == e.(bracket := r.bracket)
    ensures var found := doc.findMatchingBracket(e.lines, e.cursor);
            && (found.Some? ==> r.bracket.marker == Some(BracketRange(found.value)))
            && (Coherent(e.bracket) && found.None? ==> r.bracket.marker.None?)
  {
    e.(bracket := OnTimer(e.bracket, doc.findMatchingBracket(e.lines, e.cursor)))
  }

  /** A burst of moves starts at most one lookup (one when it begins idle),
      and that lookup, when the timer fires, is made at the last target. */
  lemma {:induction false} BurstLooksUpFinalCursor(e: EditorState, targets: seq<Position>, doc: DocAdapter)
    requires |targets| >= 1
    ensures var r := MoveThrough(e, targets);
            && r.bracket == AfterUpdates(e.bracket, |targets|)
            && r.bracket.pending
            && TimersStarted(e.bracket, |targets|) == (if e.bracket.pending then 0 else 1)
            && r.cursor == Clip(e.lines, targets[|targets| - 1].row, targets[|targets| - 1].column)
            && OnHighlightTimer(r, doc).bracket.marker
                 == (var found := doc.findMatchingBracket(e.lines, r.cursor);
                     if found.Some? then Some(BracketRange(found.value)) else None)
    decreases |targets|
  {
    UpdatesCoalesce(e.bracket, |targets|);
    var e1 := MoveCursorTo(e, targets[0].row, targets[0].column);
    if |targets| > 1 {
      BurstLooksUpFinalCursor(e1, targets[1..], doc);
    }
  }
}

=== FILE: mutations.dfy ===
/** The text-changing commands. Each one picks a range, hands it to the
    document, moves the cursor to the position the document reports (clipped
    against the edited lines) and drops or re-establishes the selection. */
module Mutations {
  import opened Options
  import opened Positions
  import opened Document
  import opened Editor

  /** Installs the edited lines and moves the cursor to the reported position.
      Anchor and lead are left as they were, possibly stale. */
  function AfterEdit(e: EditorState, edit: (Lines, Position)): (r: EditorState)
    ensures r.lines == edit.0
    ensures r.cursor == Clip(edit.0, edit.1.row, edit.1.column)
    ensures r.anchor == e.anchor && r.lead == e.lead && r.selectionMarker == e.selectionMarker
    ensures Brackets.Coherent(r.bracket)
  {
    MoveCursorTo(e.(lines := edit.0), edit.1.row, edit.1.column)
  }

  /** Cut: with a selection, its range is removed and the selection dropped;
      without one nothing happens. */
  function OnCut(e: EditorState, doc: DocAdapter): (r: EditorState)
    requires Valid(e)
    ensures Valid(r)
    ensures !HasSelection(e) ==> r == e
    ensures HasSelection(e) ==>
              var edit := doc.remove(e.lines, GetSelectionRange(e));
              && r.lines == edit.0 && r.cursor == Clip(edit.0, edit.1.row, edit.1.column)
              && r.anchor.None? && !HasSelection(r)
  {
    if HasSelection(e) then ClearSelection(AfterEdit(e, doc.remove(e.lines, GetSelectionRange(e))))
    else e
  }

  /** Typing: replaces the selection when there is one (and drops it), else
      inserts at the cursor; an armed anchor without a lead survives. */
  function OnTextInput(e: EditorState, text: string, doc: DocAdapter): (r: EditorState)
    requires Valid(e)
    ensures Valid(r) && !HasSelection(r)
    ensures HasSelection(e) ==>
              var edit := doc.replace(e.lines, GetSelectionRange(e), text);
              r.lines == edit.0 && r.cursor == Clip(edit.0, edit.1.row, edit.1.column) && r.anchor.None?
    ensures !HasSelection(e) ==>
              var edit := doc.insert(e.lines, e.cursor, text);
              r.lines == edit.0 && r.cursor == Clip(edit.0, edit.1.row, edit.1.column) && r.anchor == e.anchor
  {
    if HasSelection(e) then ClearSelection(AfterEdit(e, doc.replace(e.lines, GetSelectionRange(e), text)))
    else AfterEdit(e, doc.insert(e.lines, e.cursor, text))
  }

  /** The selection removeRight deletes, exactly as the source builds it: with
      no selection it runs select-right, which keeps an armed anchor. */
  function RemoveRightSelectionAsWritten(e: EditorState): (s: EditorState)
    requires Valid(e)
    ensures Valid(s) && HasSelection(s)
    ensures HasSelection(e) ==> s == e
    ensures !HasSelection(e) ==>
              && s.anchor == Some(e.anchor.GetOr(e.cursor)) && s.cursor == MoveCursorRight(e).cursor
              && s.lead == Some(s.cursor) && s.lines == e.lines
              && GetSelectionRange(s) == Normalize(e.anchor.GetOr(e.cursor), MoveCursorRight(e).cursor)
  {
    if HasSelection(e) then e else Select(e, Right)
  }

  /** The selection removeLeft deletes, exactly as the source builds it. */
  function RemoveLeftSelectionAsWritten(e: EditorState): (s: EditorState)
    requires Valid(e)
    ensures Valid(s) && HasSelection(s)
    ensures HasSelection(e) ==> s == e
    ensures !HasSelection(e) ==>
              && s.anchor == Some(e.anchor.GetOr(e.cursor)) && s.cursor == MoveCursorLeft(e).cursor
              && s.lead == Some(s.cursor) && s.lines == e.lines
              && GetSelectionRange(s) == Normalize(e.anchor.GetOr(e.cursor), MoveCursorLeft(e).cursor)
  {
    if HasSelection(e) then e else Select(e, Left)
  }

  /** The selection removeRight deletes: the active one, or else the one-unit
      selection from the cursor one step right (an armed anchor is dropped
      first, so the step always starts at the cursor). */
  function RemoveRightSelection(e: EditorState): (s: EditorState)
    requires Valid(e)
    ensures Valid(s) && HasSelection(s)
    ensures HasSelection(e) ==> GetSelectionRange(s) == GetSelectionRange(e)
    ensures !HasSelection(e) ==>
              var c := e.cursor; var len := |e.lines[c.row]|;
              && (c.column < len ==> GetSelectionRange(s) == Range(c, Position(c.row, c.column + 1)))
              && (c.column == len && c.row < LastRow(e.lines) ==> GetSelectionRange(s) == Range(c, Position(c.row + 1, 0)))
              && (c.column == len && c.row == LastRow(e.lines) ==> GetSelectionRange(s) == Range(c, c))
  {
    if HasSelection(e) then e else Select(ClearSelection(e), Right)
  }

  /** The selection removeLeft deletes: the active one, or else the one-unit
      selection from one step left up to the cursor. */
  function RemoveLeftSelection(e: EditorState): (s: EditorState)
    requires Valid(e)
    ensures Valid(s) && HasSelection(s)
    ensures HasSelection(e) ==> GetSelectionRange(s) == GetSelectionRange(e)
    ensures !HasSelection(e) ==>
              var c := e.cursor;
              && (c.column > 0 ==> GetSelectionRange(s) == Range(Position(c.row, c.column - 1), c))
              && (c.column == 0 && c.row > 0 ==> GetSelectionRange(s) == Range(Position(c.row - 1, |e.lines[c.row - 1]|), c))
              && (c == Position(0, 0) ==> GetSelectionRange(s) == Range(c, c))
  {
    if HasSelection(e) then e else Select(ClearSelection(e), Left)
  }

  /** Deletes the selection; with none, the unit right of the cursor. */
  function RemoveRight(e: EditorState, doc: DocAdapter): (r: EditorState)
    requires Valid(e)
    ensures Valid(r) && r.anchor.None? && !HasSelection(r)
    ensures var edit := doc.remove(e.lines, GetSelectionRange(RemoveRightSelection(e)));
            r.lines == edit.0 && r.cursor == Clip(edit.0, edit.1.row, edit.1.column)
  {
    var s := RemoveRightSelection(e);
    ClearSelection(AfterEdit(s, doc.remove(s.lines, GetSelectionRange(s))))
  }

  /** Deletes the selection; with none, the unit left of the cursor. */
  function RemoveLeft(e: EditorState, doc: DocAdapter): (r: EditorState)
    requires Valid(e)
    ensures Valid(r) && r.anchor.None? && !HasSelection(r)
    ensures var edit := doc.remove(e.lines, GetSelectionRange(RemoveLeftSelection(e)));
            r.lines == edit.0 && r.cursor == Clip(edit.0, edit.1.row, edit.1.column)
  {
    var s := RemoveLeftSelection(e);
    ClearSelection(AfterEdit(s, doc.remove(s.lines, GetSelectionRange(s))))
  }

  /** At the document end with no selection, removeRight hands the document
      the empty range at the cursor; a document that leaves the text alone
      for an empty range leaves the whole editor where it was. */
  lemma RemoveRightAtDocumentEnd(e: EditorState, doc: DocAdapter)
    requires Valid(e) && !HasSelection(e)
    requires e.cursor == Position(LastRow(e.lines), |e.lines[LastRow(e.lines)]|)
    requires doc.remove(e.lines, Range(e.cursor, e.cursor)) == (e.lines, e.cursor)
    ensures RemoveRight(e, doc).lines == e.lines && RemoveRight(e, doc).cursor == e.cursor
  {
    assert GetSelectionRange(RemoveRightSelection(e)) == Range(e.cursor, e.cursor);
  }

  /** First half of removeLine: the cursor's line is removed together with
      its line break, or up to the document end on the last line. */
  function RemoveLineFirstPass(e: EditorState, doc: DocAdapter): (r: EditorState)
    requires Valid(e)
    ensures Valid(r) && r.anchor.None? && !HasSelection(r)
    ensures var row := e.cursor.row;
            var range := if row < LastRow(e.lines) then Range(Position(row, 0), Position(row + 1, 0))
                         else Range(Position(row, 0), Position(row, |e.lines[row]|));
            var edit := doc.remove(e.lines, range);
            r.lines == edit.0 && r.cursor == Clip(edit.0, edit.1.row, edit.1.column)
  {
    var s := SelectLine(e);
    ClearSelection(AfterEdit(s, doc.remove(s.lines, GetSelectionRange(s))))
  }

  /** Removing the break before the cursor and going to its line start: the
      step that follows deleting the document's last line. */
  function JoinBackToLineStart(first: EditorState, doc: DocAdapter): (r: EditorState)
    requires Valid(first)
    ensures Valid(r) && r.anchor.None? && !HasSelection(r)
    ensures var c := first.cursor;
            var back := if c.column > 0 then Position(c.row, c.column - 1)
                        else if c.row > 0 then Position(c.row - 1, |first.lines[c.row - 1]|)
                        else c;
            var edit := doc.remove(first.lines, Range(back, c));
            !HasSelection(first) ==>
              r.lines == edit.0 && r.cursor == Position(Clip(edit.0, edit.1.row, edit.1.column).row, 0)
  {
    MoveCursorLineStart(RemoveLeft(first, doc))
  }

  /** Deletes the cursor's line as the source does: the trailing-break fixup
      runs whenever the cursor lands on the last line afterwards, which also
      happens after deleting the second-to-last line. */
  function RemoveLineAsWritten(e: EditorState, doc: DocAdapter): (r: EditorState)
    requires Valid(e)
    ensures Valid(r) && r.anchor.None? && !HasSelection(r)
    ensures var first := RemoveLineFirstPass(e, doc);
            && (first.cursor.row != LastRow(first.lines) ==> r == first)
            && (first.cursor.row == LastRow(first.lines) ==> r == JoinBackToLineStart(first, doc))
  {
    var first := RemoveLineFirstPass(e, doc);
    if first.cursor.row == LastRow(first.lines) then JoinBackToLineStart(first, doc)
    else first
  }

  /** Deletes the cursor's line. Only when that line was the document's last
      one is the break before it removed too, with the cursor at its start. */
  function RemoveLine(e: EditorState, doc: DocAdapter): (r: EditorState)
    requires Valid(e)
    ensures Valid(r) && r.anchor.None? && !HasSelection(r)
    ensures var first := RemoveLineFirstPass(e, doc);
            && (e.cursor.row < LastRow(e.lines) ==> r == first)
            && (e.cursor.row == LastRow(e.lines) ==> r == JoinBackToLineStart(first, doc))
  {
    var first := RemoveLineFirstPass(e, doc);
    if e.cursor.row == LastRow(e.lines) then JoinBackToLineStart(first, doc)
    else first
  }

  /** Deleting the middle one of three lines: as written, the cursor lands on
      the new last line and the break between the two remaining lines goes
      too; the corrected removal keeps them apart. */
  lemma RemoveLineJoinsNextLine(doc: DocAdapter)
    requires doc.remove(["a", "b", "c"], Range(Position(1, 0), Position(2, 0))) == (["a", "c"], Position(1, 0))
    requires doc.remove(["a", "c"], Range(Position(0, 1), Position(1, 0))) == (["ac"], Position(0, 1))
    ensures var e := MoveCursorTo(Init(["a", "b", "c"]), 1, 0);
            && RemoveLineAsWritten(e, doc).lines == ["ac"]
            && RemoveLine(e, doc).lines == ["a", "c"] && RemoveLine(e, doc).cursor == Position(1, 0)
  {
  }

  /** When the deleted line was the last one and the cursor ends on the new
      last line, the corrected removal and the source's agree. */
  lemma RemoveLineAgreesOnLastLine(e: EditorState, doc: DocAdapter)
    requires Valid(e) && e.cursor.row == LastRow(e.lines)
    requires var first := RemoveLineFirstPass(e, doc); first.cursor.row == LastRow(first.lines)
    ensures RemoveLine(e, doc) == RemoveLineAsWritten(e, doc)
  {
  }

  /** The indentation unit: the caller's string, or four spaces when it is
      empty (a missing argument is the empty string here). */
  function IndentUnit(indentString: string): (u: string)
    ensures u != ""
    ensures indentString != "" ==> u == indentString
    ensures indentString == "" ==> u == "    "
  {
    if indentString == "" then "    " else indentString
  }

  /** Indents the selected rows and shifts the selection by the columns the
      document reports it added; without a selection nothing happens. */
  function BlockIndent(e: EditorState, indentString: string, doc: DocAdapter): (r: EditorState)
    requires Valid(e)
    ensures Valid(r)
    ensures !HasSelection(e) ==> r == e
    ensures HasSelection(e) ==>
              var edit := doc.indentRows(e.lines, GetSelectionRange(e), IndentUnit(indentString));
              var a := e.anchor.value; var l := e.lead.value;
              && r.lines == edit.0 && HasSelection(r) && r.cursor == r.lead.value
              && r.anchor == Some(Clip(edit.0, a.row, a.column + edit.1))
              && r.lead == Some(Clip(edit.0, l.row, l.column + edit.1))
  {
    if !HasSelection(e) then e
    else
      var edit := doc.indentRows(e.lines, GetSelectionRange(e), IndentUnit(indentString));
      ShiftSelection(e.(lines := edit.0), edit.1)
  }

  /** Outdents the selected rows and shifts the selection back by what the
      document reports; without a selection nothing happens. */
  function BlockOutdent(e: EditorState, indentString: string, doc: DocAdapter): (r: EditorState)
    requires Valid(e)
    ensures Valid(r)
    ensures !HasSelection(e) ==> r == e
    ensures HasSelection(e) ==>
              var edit := doc.outdentRows(e.lines, GetSelectionRange(e), IndentUnit(indentString));
              var a := e.anchor.value; var l := e.lead.value;
              && r.lines == edit.0 && HasSelection(r) && r.cursor == r.lead.value
              && r.anchor == Some(Clip(edit.0, a.row, a.column + edit.1))
              && r.lead == Some(Clip(edit.0, l.row, l.column + edit.1))
  {
    if !HasSelection(e) then e
    else
      var edit := doc.outdentRows(e.lines, GetSelectionRange(e), IndentUnit(indentString));
      ShiftSelection(e.(lines := edit.0), edit.1)
  }

  /** When the edited document keeps the selected rows, an indent keeps both
      selection ends on their rows and moves their columns by the reported
      count, limited to the line. */
  lemma BlockIndentShiftsColumns(e: EditorState, indentString: string, doc: DocAdapter)
    requires Valid(e) && HasSelection(e)
    requires var edit := doc.indentRows(e.lines, GetSelectionRange(e), IndentUnit(indentString));
             0 <= e.anchor.value.row < |edit.0| && 0 <= e.lead.value.row < |edit.0|
    ensures var edit := doc.indentRows(e.lines, GetSelectionRange(e), IndentUnit(indentString));
            var r := BlockIndent(e, indentString, doc);
            var a := e.anchor.value; var l := e.lead.value;
            && r.anchor == Some(Position(a.row, Clamp(a.column + edit.1, 0, |edit.0[a.row]|)))
            && r.lead == Some(Position(l.row, Clamp(l.column + edit.1, 0, |edit.0[l.row]|)))
            && r.cursor == r.lead.value
  {
    var edit := doc.indentRows(e.lines, GetSelectionRange(e), IndentUnit(indentString));
    ShiftSelectionKeepsRows(e.(lines := edit.0), edit.1);
  }

  /** The rows a line-moving command acts on: those of the range, except that
      a multi-row range ending at column 0 does not take in its last row. */
  function LineSpan(range: Range): (span: (int, int))
    requires IsNormalized(range)
    ensures span.0 == range.start.row
    ensures span.0 <= span.1 <= range.end.row
    ensures span.1 < range.end.row <==> range.end.column == 0 && range.start.row != range.end.row
  {
    var lastRow := range.end.row;
    if range.end.column == 0 && range.start.row != range.end.row then (range.start.row, lastRow - 1)
    else (range.start.row, lastRow)
  }

  /** Moves the selected block of lines up or down; the document reports by
      how many rows it moved. The moved block is then selected as whole lines,
      anchored at the start of the row after it, the cursor at its first row. */
  function MoveLines(e: EditorState, up: bool, doc: DocAdapter): (r: EditorState)
    requires Valid(e)
    ensures Valid(r) && HasSelection(r) && r.lead == Some(r.cursor)
    ensures var span := LineSpan(GetSelectionRange(e));
            var edit := if up then doc.moveLinesUp(e.lines, span.0, span.1)
                        else doc.moveLinesDown(e.lines, span.0, span.1);
            && r.lines == edit.0
            && r.cursor == Clip(edit.0, span.0 + edit.1, 0)
            && r.anchor == Some(Clip(edit.0, span.1 + edit.1 + 1, 0))
  {
    var span := LineSpan(GetSelectionRange(e));
    var firstRow := span.0;
    var lastRow := span.1;
    var edit := if up then doc.moveLinesUp(e.lines, firstRow, lastRow)
                else doc.moveLinesDown(e.lines, firstRow, lastRow);
    var linesMoved := edit.1;
    var armed := SetSelectionAnchor(e.(lines := edit.0), lastRow + linesMoved + 1, 0);
    MoveSelection(armed, To(firstRow + linesMoved, 0))
  }

  /** While the moved block and the row after it stay inside the document,
      the new selection is exactly the block's rows, from column 0 of its
      first row to column 0 of the row after it. */
  lemma MoveLinesSelectsBlock(e: EditorState, up: bool, doc: DocAdapter)
    requires Valid(e)
    requires var span := LineSpan(GetSelectionRange(e));
             var edit := if up then doc.moveLinesUp(e.lines, span.0, span.1)
                         else doc.moveLinesDown(e.lines, span.0, span.1);
             0 <= span.0 + edit.1 && span.1 + edit.1 + 1 < |edit.0|
    ensures var span := LineSpan(GetSelectionRange(e));
            var edit := if up then doc.moveLinesUp(e.lines, span.0, span.1)
                        else doc.moveLinesDown(e.lines, span.0, span.1);
            GetSelectionRange(MoveLines(e, up, doc))
              == Range(Position(span.0 + edit.1, 0), Position(span.1 + edit.1 + 1, 0))
  {
  }

  /** A click arms an anchor without a lead, and typing moves the cursor
      without dropping it. Delete then builds its selection from that stale
      anchor: as written it removes the typed "x" and the "a" after the
      cursor, where one unit right of the cursor is meant. */
  lemma ArmedAnchorWidensRemoveRight(doc: DocAdapter)
    requires doc.insert(["ab"], Position(0, 0), "x") == (["xab"], Position(0, 1))
    ensures var typed := OnTextInput(MouseDown(Init(["ab"]), Position(0, 0)), "x", doc);
            && typed.cursor == Position(0, 1) && typed.anchor == Some(Position(0, 0)) && !HasSelection(typed)
            && GetSelectionRange(RemoveRightSelectionAsWritten(typed)) == Range(Position(0, 0), Position(0, 2))
            && GetSelectionRange(RemoveRightSelection(typed)) == Range(Position(0, 1), Position(0, 2))
  {
  }

  /** The same stale anchor makes Backspace, as written, remove the empty
      range at the click point instead of the typed "x". */
  lemma ArmedAnchorEmptiesRemoveLeft(doc: DocAdapter)
    requires doc.insert(["ab"], Position(0, 0), "x") == (["xab"], Position(0, 1))
    ensures var typed := OnTextInput(MouseDown(Init(["ab"]), Position(0, 0)), "x", doc);
            && GetSelectionRange(RemoveLeftSelectionAsWritten(typed)) == Range(Position(0, 0), Position(0, 0))
            && GetSelectionRange(RemoveLeftSelection(typed)) == Range(Position(0, 0), Position(0, 1))
  {
  }

  /** Without an armed anchor the source's construction and the corrected one agree. */
  lemma RemoveSelectionsAgreeWhenUnarmed(e: EditorState)
    requires Valid(e) && e.anchor.None?
    ensures GetSelectionRange(RemoveRightSelectionAsWritten(e)) == GetSelectionRange(RemoveRightSelection(e))
    ensures GetSelectionRange(RemoveLeftSelectionAsWritten(e)) == GetSelectionRange(RemoveLeftSelection(e))
  {
  }
}

=== FILE: options.dfy ===
/** The optional value the editor uses wherever the source stores `null`. */
module Options {

  datatype Option<+T> = None | Some(value: T) {

    /** The wrapped value, or `default` when there is none (the source's `x || default`). */
    function GetOr(default: T): T {
      match this
      case Some(v) => v
      case None => default
    }
  }
}

=== FILE: positions.dfy ===
/** (row, column) pairs and the ranges the selection controller builds from them. */
module Positions {

  /** A place in a document. Nothing about a Position ties it to a document:
      it is checked against one only when it is clipped. */
  datatype Position = Position(row: int, column: int)

  /** A pair of positions; the controller only ever builds normalized ones. */
  datatype Range = Range(start: Position, end: Position)

  /** `a` comes strictly after `b` in row-major, then column, order. */
  predicate After(a: Position, b: Position) {
    a.row > b.row || (a.row == b.row && a.column > b.column)
  }

  predicate LessEq(a: Position, b: Position) {
    !After(a, b)
  }

  predicate IsNormalized(r: Range) {
    LessEq(r.start, r.end)
  }

  /** Orders the two endpoints of a selection; ties keep the anchor first. */
  function Normalize(anchor: Position, lead: Position): (r: Range)
    ensures IsNormalized(r)
    ensures (r.start == anchor && r.end == lead) || (r.start == lead && r.end == anchor)
  {
    if After(anchor, lead) then Range(lead, anchor) else Range(anchor, lead)
  }

  /** LessEq is a total order on positions. */
  lemma LessEqIsTotalOrder(a: Position, b: Position, c: Position)
    ensures LessEq(a, a)
    ensures LessEq(a, b) && LessEq(b, a) ==> a == b
    ensures LessEq(a, b) && LessEq(b, c) ==> LessEq(a, c)
    ensures LessEq(a, b) || LessEq(b, a)
  {
  }

  /** A normalized range with the same two endpoints is exactly what Normalize
      builds, so the order in which anchor and lead are given does not matter. */
  lemma NormalizeUnique(a: Position, b: Position, r: Range)
    requires IsNormalized(r)
    requires (r.start == a && r.end == b) || (r.start == b && r.end == a)
    ensures r == Normalize(a, b)
    ensures r == Normalize(b, a)
  {
    LessEqIsTotalOrder(a, b, a);
  }
}

=== FILE: scenarios.dfy ===
/** Concrete examples of the editor's commands, proved on small documents. */
module Scenarios {
  import opened Options
  import opened Positions
  import opened Document
  import opened Words
  import opened Editor

  /** On a one-character document a far-out target clips to the end of the line. */
  lemma ClipFarTarget()
    ensures MoveCursorTo(Init(["a"]), 5, 5).cursor == Position(0, 1)
  {
  }

  /** Right from the end of "abc" wraps to the start of "def"; left wraps back. */
  lemma WrapSymmetry()
    ensures var e := MoveCursorTo(Init(["abc", "def"]), 0, 3);
            && MoveCursorRight(e).cursor == Position(1, 0)
            && MoveCursorLeft(MoveCursorRight(e)).cursor == Position(0, 3)
  {
  }

  /** Word-right over "foo.bar" stops after "foo", after ".", after "bar". */
  lemma WordStops()
    ensures var e := Init(["foo.bar"]);
            var e1 := MoveCursorWordRight(e);
            var e2 := MoveCursorWordRight(e1);
            var e3 := MoveCursorWordRight(e2);
            && e1.cursor == Position(0, 3)
            && e2.cursor == Position(0, 4)
            && e3.cursor == Position(0, 7)
  {
    var line := "foo.bar";
    assert RunEnd(line, 0, true) == 3 by {
      RunEndUnique(line, 0, true, 3);
    }
    assert RunEnd(line, 3, false) == 4 by {
      RunEndUnique(line, 3, false, 4);
    }
    assert RunEnd(line, 4, true) == 7 by {
      RunEndUnique(line, 4, true, 7);
    }
  }

  /** Double-clicking inside "bar" of "foo bar" selects "bar". */
  lemma DoubleClickSelectsWord()
    ensures var e := MoveCursorTo(Init(["foo bar"]), 0, 5);
            GetSelectionRange(MouseDoubleClick(e)) == Range(Position(0, 4), Position(0, 7))
  {
    var line := "foo bar";
    assert InTokenAt(line, 5);
    RunStartUnique(line, 5, true, 4);
    RunEndUnique(line, 5, true, 7);
  }
}

=== FILE: words.dfy ===
/** The character classes behind word motion and double-click selection:
    the token pattern `^[\w\d]+` and the non-token pattern `^[^\w\d]+`,
    modelled as scans over runs of one class. */
module Words {

  /** `\w` (which already covers `\d`): ASCII letters, digits and underscore. */
  predicate IsWordChar(c: char) {
    ('a' <= c <= 'z') || ('A' <= c <= 'Z') || ('0' <= c <= '9') || c == '_'
  }

  /** `c` is in the token class when `word` holds, in the non-token class otherwise. */
  predicate InClass(c: char, word: bool) {
    IsWordChar(c) == word
  }

  /** End of the maximal run of class `word` that starts at `from`. */
  function RunEnd(line: string, from: int, word: bool): (k: int)
    requires 0 <= from <= |line|
    ensures from <= k <= |line|
    ensures forall i :: from <= i < k ==> InClass(line[i], word)
    ensures k == |line| || !InClass(line[k], word)
    decreases |line| - from
  {
    if from == |line| || !InClass(line[from], word) then from
    else RunEnd(line, from + 1, word)
  }

  /** Start of the maximal run of class `word` that ends at `stop`. */
  function RunStart(line: string, stop: int, word: bool): (k: int)
    requires 0 <= stop <= |line|
    ensures 0 <= k <= stop
    ensures forall i :: k <= i < stop ==> InClass(line[i], word)
    ensures k == 0 || !InClass(line[k - 1], word)
    decreases stop
  {
    if stop == 0 || !InClass(line[stop - 1], word) then stop
    else RunStart(line, stop - 1, word)
  }

  /** Any maximal forward run ends where RunEnd says. */
  lemma RunEndUnique(line: string, from: int, word: bool, k: int)
    requires 0 <= from <= k <= |line|
    requires forall i :: from <= i < k ==> InClass(line[i], word)
    requires k == |line| || !InClass(line[k], word)
    ensures k == RunEnd(line, from, word)
  {
  }

  /** Any maximal backward run starts where RunStart says. */
  lemma RunStartUnique(line: string, stop: int, word: bool, k: int)
    requires 0 <= k <= stop <= |line|
    requires forall i :: k <= i < stop ==> InClass(line[i], word)
    requires k == 0 || !InClass(line[k - 1], word)
    ensures k == RunStart(line, stop, word)
  {
  }

  /** Length of the match of the token (`word`) or non-token (`!word`)
      pattern anchored at the start of `s`; 0 when it does not match. */
  function MatchLength(s: string, word: bool): (n: int)
    ensures 0 <= n <= |s|
    ensures n > 0 <==> |s| > 0 && InClass(s[0], word)
  {
    RunEnd(s, 0, word)
  }

  function Reverse(s: string): (r: string)
    ensures |r| == |s|
    ensures forall i :: 0 <= i < |s| ==> r[i] == s[|s| - 1 - i]
  {
    if s == [] then [] else Reverse(s[1..]) + [s[0]]
  }

  /** Matching at the start of a suffix is scanning the line from the cut. */
  lemma MatchOnSuffix(line: string, column: int, word: bool)
    requires 0 <= column <= |line|
    ensures column + MatchLength(line[column..], word) == RunEnd(line, column, word)
  {
    var rest := line[column..];
    var n := MatchLength(rest, word);
    forall i | column <= i < column + n
      ensures InClass(line[i], word)
    {
      assert line[i] == rest[i - column];
    }
    if column + n < |line| {
      assert line[column + n] == rest[n];
    }
    RunEndUnique(line, column, word, column + n);
  }

  /** Matching at the start of the reversed prefix is scanning the line
      backwards from the cut. */
  lemma MatchOnReversedPrefix(line: string, column: int, word: bool)
    requires 0 <= column <= |line|
    ensures column - MatchLength(Reverse(line[..column]), word) == RunStart(line, column, word)
  {
    var rev := Reverse(line[..column]);
    var n := MatchLength(rev, word);
    forall i | column - n <= i < column
      ensures InClass(line[i], word)
    {
      assert line[i] == rev[column - 1 - i];
    }
    if n < column {
      assert line[column - n - 1] == rev[n];
    }
    RunStartUnique(line, column, word, column - n);
  }

  /** The column word-right reaches from inside a line: the non-token match
      is tried first, then the token match. */
  function WordRightColumn(line: string, column: int): (c: int)
    requires 0 <= column < |line|
    ensures column < c <= |line|
    ensures c == RunEnd(line, column, IsWordChar(line[column]))
  {
    var rest := line[column..];
    MatchOnSuffix(line, column, IsWordChar(line[column]));
    var nonToken := MatchLength(rest, false);
    if nonToken > 0 then column + nonToken
    else
      var token := MatchLength(rest, true);
      if token > 0 then column + token else column
  }

  /** The column word-left reaches from a column past the line start: the
      same two matches run over the reversed text left of the cursor. */
  function WordLeftColumn(line: string, column: int): (c: int)
    requires 0 < column <= |line|
    ensures 0 <= c < column
    ensures c == RunStart(line, column, IsWordChar(line[column - 1]))
  {
    var leftOfCursor := Reverse(line[..column]);
    MatchOnReversedPrefix(line, column, IsWordChar(line[column - 1]));
    var nonToken := MatchLength(leftOfCursor, false);
    if nonToken > 0 then column - nonToken
    else
      var token := MatchLength(leftOfCursor, true);
      if token > 0 then column - token else column
  }

  /** Word-right then word-left from inside a line returns to the start of
      the run the cursor was in: to the original column only when that run
      begins there. */
  lemma WordRightThenLeft(line: string, column: int)
    requires 0 <= column < |line|
    ensures WordLeftColumn(line, WordRightColumn(line, column))
            == RunStart(line, column, IsWordChar(line[column]))
  {
    var w := IsWordChar(line[column]);
    var e := WordRightColumn(line, column);
    assert IsWordChar(line[e - 1]) == w;
    var s := RunStart(line, column, w);
    RunStartUnique(line, e, w, s);
  }

  /** The class a double-click selects: the token class when the character
      before or at the column is a word character. */
  predicate InTokenAt(line: string, column: int)
    requires 0 <= column <= |line|
  {
    (column > 0 && IsWordChar(line[column - 1])) || (column < |line| && IsWordChar(line[column]))
  }

  /** The double-click scan: from the column, left and then right over the
      class found there. */
  method ScanWordBounds(line: string, column: int) returns (start: int, end: int)
    requires 0 <= column <= |line|
    ensures start == RunStart(line, column, InTokenAt(line, column))
    ensures end == RunEnd(line, column, InTokenAt(line, column))
  {
    var inToken := false;
    if column > 0 {
      inToken := IsWordChar(line[column - 1]);
    }
    if !inToken {
      inToken := column < |line| && IsWordChar(line[column]);
    }

    start := column;
    if start > 0 {
      start := start - 1;
      while start >= 0 && InClass(line[start], inToken)
        invariant -1 <= start < column
        invariant forall i :: start < i < column ==> InClass(line[i], inToken)
        decreases start
      {
        start := start - 1;
      }
      start := start + 1;
    }

    end := column;
    while end < |line| && InClass(line[end], inToken)
      invariant column <= end <= |line|
      invariant forall i :: column <= i < end ==> InClass(line[i], inToken)
      decreases |line| - end
    {
      end := end + 1;
    }

    RunStartUnique(line, column, inToken, start);
    RunEndUnique(line, column, inToken, end);
  }
}
